=== FILE: README.md ===
# Attendance tracker backend: verified model of its request handling

The service is an HTTP backend for employee attendance. Employees open and
close work sessions; administrators create, edit and delete employee records
and review attendance; a signed token carries the caller's email. All of its
logic sits in `index.js` as route handlers over two document collections,
`users` (employees) and `attendance`.

This project models those handlers as pure functions from a request and the
store to the reply and the new store, and proves what each one does to the
store. The store is two sequences of documents in insertion order, each with
an abstract identifier and string-keyed scalar fields, plus the next fresh
identifier (`State.Store`). The database driver calls the handlers use
(`findOne`, `find`, `sort({_id: -1})`, `insertOne`, `updateOne` with `$set`,
`deleteOne`) are modelled in `Collection`. Signature checking of tokens is an
oracle `verify: string -> Option<Value>` passed to the router.

Modules, leaf first:

- `Values`: JSON scalars, field maps, reading an absent field as `null` (the
  driver serialises `undefined` as `null`, and `{k: null}` matches a missing
  field), and the `$set` operator.
- `Text`: `toString` of naturals below 2^53, `padStart`, `split`, with round-trip lemmas.
- `Collection`: documents, filters and the driver calls.
- `EmployeeId`: the `"#B&V"` + zero-padded counter identifier.
- `AttendanceQuery`: the admin attendance query builder, dead branch included.
- `State`: the store, its invariants, the replies.
- `Access`: `verifyJWT`, the self-only admin check, `verifyAdmin`.
- `Employees`, `Attendance`: the route handlers.
- `Server`: the routes with their middleware chains.

Two invariants are proved to survive every request (`Server.Handle`):
identifiers increase in insertion order, so `sort({_id: -1})` is
reverse insertion order; and no two employees share an email, counting
records without an email as sharing `null`.

## Where the code departs from its evident intent

The model follows the code in each case.

- Claiming an account (`PUT /api/users`) builds a `$set` of email, phone,
  image and `isAccount: true` (index.js:152-159), evidently to mark a
  provisioned employee's account as claimed. But the handler returns early
  for every email that exists (index.js:145-151) and sends the update, with
  the same filter, only when it found nothing, so the update matches no
  record. The store never changes (`Employees.ClaimAccount`).
- `verifyJWT` answers a token that fails verification with 401
  (index.js:55-56), evidently to stop the request. It then still calls
  `next()` (index.js:58-59). The client sees 401, but a non-admin handler
  still runs and writes (`Server.BadTokenStillOpensSession`).
- The admin attendance listing has a branch that filters by email and both
  dates together (index.js:372-377). The first test already takes the
  date-only branch whenever both dates are given (index.js:363-367), so that
  branch cannot be reached (`AttendanceQuery.Build`).

Two further consequences of the code are stated as lemmas:

- The email check of an admin edit (index.js:279-287) looks at every record,
  the edited one included, so an edit that keeps the record's own email is
  refused (`Employees.UpdateRejectsUnchangedEmail`).
- A new employee's identifier comes from the live count (index.js:240-243).
  Take n records where the newest holds `Format(n-1)`, as it does when it was
  created after the other n-1. Delete any record other than the newest, then
  create one: the new record receives that same `employeeId`, so two stored
  records share it (`Employees.IdReusedAfterDelete`).

## Model

| member | source | states |
|---|---|---|
| `Values.Assign` | index.js:201-206 | `$set`: the keys of the update take their new values, every other field keeps its old value, and the key set is the union |
| `Text.Decimal` | index.js:241-242 | `toString` of a natural: non-empty, all digits, leading `'0'` exactly for zero, one digit exactly below ten |
| `Text.ParseDecimalOfDecimal` | index.js:241-242 | reading the decimal text of `n` back gives `n` |
| `Text.ParseDecimalLeadingZero` | index.js:242-243 | a leading `'0'` from padding does not change the number read |
| `Text.PadStart` | index.js:242-243 | `padStart(width, c)`: length is the larger of width and the input length, the input is a suffix, and everything before it is `c` |
| `Text.Split` | index.js:52 | `split(sep)`: at least one piece, no piece contains the separator, one piece exactly when there is no separator, and joining the pieces gives the input back |
| `Text.SecondPiece` | index.js:52 | the second piece of a split starts right after the first separator and ends at the next separator or at the end |
| `Access.BearerToken` | index.js:52 | `split(" ")[1]` is present exactly when the header has a space; it is the space-free text between the first space and the next space or the end |
| `Collection.FirstMatch` | index.js:98 | the position found matches the filter and nothing before it does; none is found exactly when no document matches |
| `Collection.FindOne` | index.js:98 | `findOne` returns a stored matching document, the first in insertion order, and returns one exactly when any document matches |
| `Collection.FindAll` | index.js:174 | `find` returns exactly the stored documents that match, each no more often than it is stored, so a match is never repeated |
| `Collection.FindAllEverything` | index.js:370 | the empty query `{}` returns the whole collection in order |
| `Collection.FindAllKeepsOrder` | index.js:385 | filtering keeps the increasing-identifier order |
| `Collection.Reverse` | index.js:174 | the result has the same length with element `i` taken from position `n-1-i` |
| `Collection.ReverseIsNewestFirst` | index.js:385 | in a collection whose identifiers increase, reverse order is the descending-identifier order of `sort({_id: -1})` |
| `Collection.IdMatchIsUnique` | index.js:200 | with distinct identifiers, `{_id: id}` matches only the one document that has it |
| `Collection.UpdateOne` | index.js:208-211 | `updateOne`: same length and identifiers; the first matching document becomes its old fields with the update applied, every other document stays; no match means no change; `matchedCount` is 1 or 0 as a document matched, `modifiedCount` 1 or 0 as the collection changed |
| `Collection.UpdateOneKeepsOrder` | index.js:208-211 | an update keeps every identifier in place, so increasing identifiers below a bound stay so |
| `Collection.DeleteOne` | index.js:318 | `deleteOne`: with no match nothing is removed; otherwise exactly the first match is removed, the others keep their order, and the count is 1 |
| `Collection.DeleteByIdRemovesExactly` | index.js:317-318 | deleting by identifier keeps exactly the documents with other identifiers and keeps their order increasing |
| `Collection.InsertOne` | index.js:188 | `insertOne` appends one document at the end; a fresh, larger identifier keeps the order increasing |
| `State.AddEmployee` | index.js:260 | an employee insert appends the record under the next identifier, replies with that identifier, and keeps the store invariant |
| `State.AddAttendance` | index.js:188 | an attendance insert appends the record under the next identifier, replies with that identifier, and keeps the store invariant |
| `EmployeeId.Format` | index.js:240-243 | the identifier starts with `#B&V` and is followed by digits; it is 6 characters with a `'0'` pad when count+1 < 10; otherwise the digits are the unpadded decimal of count+1 |
| `EmployeeId.NumberOfFormat` | index.js:240-243 | the number read back from the identifier is count+1 |
| `EmployeeId.FormatInjective` | index.js:240-243 | different employee counts never give the same identifier |
| `AttendanceQuery.Build` | index.js:361-382 | both dates truthy gives exactly the date range and ignores email; otherwise a truthy email gives `{email}` and anything else gives `{}`; the email-and-dates query is never produced |
| `AttendanceQuery.BuildIsPolicy` | index.js:361-382 | the query built equals the three-case policy written without the dead branch |
| `AttendanceQuery.EmailIgnoredWithDates` | index.js:363-367 | with both dates truthy, changing the email parameter does not change the query |
| `AttendanceQuery.LoneDateIgnored` | index.js:368-381 | unless both dates are truthy, the query is the same as with no dates at all |
| `AttendanceQuery.SelectsExactly` | index.js:363-385 | which sessions the query selects: those in the date range, else those with the email, else all |
| `Access.VerifyJwt` | index.js:44-61 | a missing or empty header halts with 401; a token that fails verification writes 401 yet continues with an undefined identity; only a verified token continues with its payload and nothing written |
| `Access.AdminCheck` | index.js:91-101 | `admin` is false whenever the decoded identity is not the path email; otherwise it holds exactly when the first record with that email has role `"admin"` |
| `Access.VerifyAdmin` | index.js:104-116 | the chain continues exactly when the first record whose email is the decoded identity has role `"admin"`; no such record means 403 |
| `Access.VerifyAdminUnique` | index.js:108-110 | with unique emails the admin test depends only on the one record with that email |
| `Employees.UserExists` | index.js:120-135 | the reply flags whether some employee has that email, with the matching message, and nothing is written |
| `Employees.ClaimAccount` | index.js:141-162 | the store never changes; an existing email gets `isUserExist: true`, and an unknown one gets an update reply with zero matched and modified |
| `Employees.ListEmployees` | index.js:223-225 | `find({}).toArray()` returns every employee in stored order, and nothing is written |
| `Employees.NewEmployeeFields` | index.js:238-248 | the payload's fields survive except `employeeId`, `role`, `image` and `isAccount`, which are forced to the identifier given (the create handler passes the sequential one), `"employee"`, `""` and `false` |
| `Employees.CreateEmployee` | index.js:237-261 | a stored email means the store is unchanged and `isEmailExist` is the reply; otherwise exactly one record is appended with the forced fields under the next identifier; email uniqueness and the store invariant are kept |
| `Employees.AppendFreshEmail` | index.js:250-260 | appending a record whose email no stored record has keeps emails unique |
| `Employees.ProfileUpdate` | index.js:289-296 | the update sets exactly name, designation, email and phone, each from the payload |
| `Employees.UpdateEmployee` | index.js:275-302 | any record with the new email means a rejection and no change; otherwise the record with that identifier gains exactly the four profile keys and takes their payload values, all other records and fields are untouched, an unknown identifier changes nothing, and the reply is `matchedCount` 1 or 0 as the record exists and `modifiedCount` 1 or 0 as the collection changed; email uniqueness and the store invariant are kept |
| `Employees.UpdateKeepsEmailsUnique` | index.js:279-301 | an accepted edit cannot create two employees with one email |
| `Employees.UpdateRejectsUnchangedEmail` | index.js:279-287 | an edit that keeps the record's own email is always refused and changes nothing |
| `Employees.DeleteEmployee` | index.js:315-319 | the record with that identifier is removed and every other record stays; the reply's `deletedCount` is 1 when it existed and 0 otherwise, in which case nothing changes; attendance, email uniqueness and the store invariant are kept |
| `Employees.DeleteKeepsEmailsUnique` | index.js:317-318 | removing a record never makes two remaining records share an email |
| `Employees.IdReusedAfterDelete` | index.js:240-243 | when the newest of n records holds `Format(n-1)`, deleting any other employee and then creating one gives the new record that same `employeeId`, so two stored records share it under different document identifiers |
| `Attendance.AttachUser` | index.js:175-177 | every row is paired with the same employee lookup and the rows keep their order |
| `Attendance.ListOwn` | index.js:169-179 | the rows are exactly the sessions with that email, newest first, each with the first employee record for the email; nothing is written |
| `Attendance.OpenSession` | index.js:185-189 | the payload is appended verbatim as a new session under a fresh identifier, and the next identifier moves on by one; employees are untouched |
| `Attendance.CloseSession` | index.js:195-212 | the session with that identifier gains exactly the keys `endTime` and `totalWork` and takes their payload values; every other field and session and all employees are untouched; an unknown identifier changes nothing; the reply is `matchedCount` 1 or 0 as the session exists and `modifiedCount` 1 or 0 as the collection changed |
| `Attendance.CloseWritesNulls` | index.js:201-211 | closing a session with an empty payload replies `matchedCount` 1 and `modifiedCount` 1, because the `$set` adds `endTime` and `totalWork` as nulls |
| `Attendance.ListFiltered` | index.js:349-386 | the reply is exactly the sessions the built query selects, newest first; nothing is written |
| `Attendance.UnfilteredListsAll` | index.js:369-370 | with no parameters every session is listed, newest first |
| `Server.Handle` | index.js:44-116 | a halted token check means 401 and no change; a failed token means the client sees 401 whatever runs after; every request keeps the store invariant and email uniqueness |
| `Server.Route` | index.js:169-324 | the attendance routes and the admin check leave the employees unchanged, the employee routes and the admin check leave the attendance unchanged, and every handler keeps the store invariant and email uniqueness |
| `Server.NoHeaderNoEffect` | index.js:47-51 | without an Authorization header every guarded route replies 401 and writes nothing |
| `Server.NonAdminForbidden` | index.js:110-114 | a verified caller whose record is not an admin gets 403 on every admin route and nothing is written |
| `Server.BadTokenStillOpensSession` | index.js:55-59 | with a token that fails verification, opening a session replies 401 yet stores the session |
| `Server.GoodTokenRunsHandler` | index.js:58-59 | a verified (and, on admin routes, admin) caller gets exactly the handler's reply and effect |
| `Server.AttendanceRoutesKeepEmployees` | index.js:169-216 | the attendance routes never change the employee collection |
| `Server.EmployeeRoutesKeepAttendance` | index.js:221-324 | the employee routes and the admin check never change the attendance collection |

## Left out

- `GET /api/ip-api/:ip` (index.js:26-39): an outbound network call.
- `POST /api/jwt` token signing and the signature check inside `jwt.verify`: third-party cryptography. Verification is the oracle `verify`. Only the rejection of a missing or empty token is modelled.
- `GET /api/admin/employeeName` (field projection) and `POST /api/admin/attendance/:id` (merging employee and attendance details): driver and object-spread semantics with little to state.
- The `500 Internal server error` catch paths: they only report driver failures, which the model does not have.
- `new ObjectId(id)` and its exception on malformed text: path identifiers are abstract `Id` values.
- `new Date(parseInt(text)).getTime()`: a date parameter carries its text (for truthiness) and its already-parsed timestamp. `NaN` is not modelled.
- Arrays and nested objects as field values, non-integer numbers, repeated query parameters, and MongoDB's matching of scalars inside arrays: fields are JSON scalars.
- A client-supplied `_id` in an insert payload: inserts always get a fresh identifier.
- Concurrency: requests are handled one at a time. The race between counting employees and inserting one is therefore not modelled.
- MongoDB connection setup and ping, CORS, JSON body parsing, logging, `app.listen` and `GET /`: runtime plumbing.
- Attendance.ListOwn: the newest-first order is stated only for stores whose identifiers increase with insertion (`State.Valid`), the only stores the service produces.
- Attendance.ListFiltered: the newest-first order is stated only for stores satisfying `State.Valid`, as for `ListOwn`.
- Server.Handle: after `verifyJWT` has sent 401, a later `res.send` (the handler's reply, its 500 catch, or the 403 of `verifyAdmin`) throws because the headers are already sent. This happens inside an async function that Express does not await, so it surfaces as an unhandled promise rejection, which recent Node versions treat as fatal. The model records only the reply the client saw and the store as the handler left it; the exception and any process exit are not modelled.
- Text.Decimal: models `toString` for counts below 2^53. Beyond that a JavaScript number is inexact, and from 10^21 `toString` writes exponent notation (`"1e+21"`); employee counts never come near either bound.

=== FILE: access.dfy ===
/**
 * The access-control chain in front of protected routes: token verification
 * (`verifyJWT`), the self-only "am I an admin" check and the admin-only guard
 * (`verifyAdmin`). Signature checking itself is an oracle `verify` from a
 * token to its decoded payload, `None` when verification fails.
 */
module Access {
  import opened Values
  import opened Text
  import opened Collection
  import opened State

  /** The `Authorization` request header: missing, or its text. */
  datatype Header = NoHeader | Header(text: string)

  /**
   * `text.split(" ")[1]`: the piece after the first space, up to the next
   * space or the end; `None` (JavaScript `undefined`) when there is no space.
   */
  function BearerToken(text: string): (r: Option<string>)
    ensures r.Some? <==> ' ' in text
    ensures r.Some? ==> ' ' !in r.value
    ensures r.Some? ==>
              exists i | 0 <= i < |text| ::
                && ' ' !in text[..i] && text[i] == ' '
                && i + 1 + |r.value| <= |text|
                && text[i + 1..i + 1 + |r.value|] == r.value
                && (i + 1 + |r.value| == |text| || text[i + 1 + |r.value|] == ' ')
  {
    var parts := Split(text, ' ');
    if |parts| > 1 then
      SecondPiece(text, ' ');
      assert ' ' !in text[..|parts[0]|];
      Some(parts[1])
    else
      None
  }

  /** Outcome of `verifyJWT`: the chain stops, or goes on with `req.decoded` set. */
  datatype Gate =
    | Halt(reply: Response)
    /** `sent` is the reply already written before `next()` was called, if any. */
    | Proceed(decoded: Value, sent: Option<Response>)

  /**
   * `verifyJWT`. A missing or empty header stops the chain with 401. A token
   * that fails verification also writes 401, but the middleware still calls
   * `next()`, with `req.decoded` undefined (here `Null`); only a token that
   * verifies continues with its payload and nothing written.
   */
  function VerifyJwt(h: Header, verify: string -> Option<Value>): (g: Gate)
    ensures g.Halt? <==> h.NoHeader? || h.text == ""
    ensures g.Halt? ==> g.reply == Unauthorized
    ensures g.Proceed? ==> g.sent.None? || (g.sent == Some(Unauthorized) && g.decoded == Null)
    ensures g.Proceed? && g.sent.None? ==>
              var token := BearerToken(h.text);
              token.Some? && token.value != "" && verify(token.value) == Some(g.decoded)
    ensures g.Proceed? && g.sent.Some? ==>
              var token := BearerToken(h.text);
              token.None? || token.value == "" || verify(token.value).None?
  {
    match h
    case NoHeader => Halt(Unauthorized)
    case Header(text) =>
      if text == "" then Halt(Unauthorized)
      else
        match BearerToken(text)
        // `jwt.verify` rejects a missing or empty token before any signature check
        case None => Proceed(Null, Some(Unauthorized))
        case Some(token) =>
          if token == "" then Proceed(Null, Some(Unauthorized))
          else
            match verify(token)
            case None => Proceed(Null, Some(Unauthorized))
            case Some(decoded) => Proceed(decoded, None)
  }

  /** `user?.role === "admin"`. */
  predicate HasAdminRole(user: Option<Doc>)
  {
    user.Some? && Get(user.value.fields, "role") == Str("admin")
  }

  /** The first employee whose email field reads `email` has the admin role. */
  ghost predicate FirstWithEmailIsAdmin(employees: seq<Doc>, email: Value)
  {
    exists i | 0 <= i < |employees| ::
      && Get(employees[i].fields, "email") == email
      && (forall j | 0 <= j < i :: Get(employees[j].fields, "email") != email)
      && Get(employees[i].fields, "role") == Str("admin")
  }

  /**
   * GET /api/users/admin/:email behind a passed token check: a caller asking
   * about anyone but themself is told `false`; otherwise the answer is
   * whether their first employee record has the admin role.
   */
  function AdminCheck(decoded: Value, email: string, employees: seq<Doc>): (admin: bool)
    ensures decoded != Str(email) ==> !admin
    ensures decoded == Str(email) ==> (admin <==> FirstWithEmailIsAdmin(employees, Str(email)))
  {
    if decoded != Str(email) then false
    else HasAdminRole(FindOne(employees, ByField("email", Str(email))))
  }

  /**
   * `verifyAdmin`: the chain continues exactly when the first employee whose
   * email equals the decoded identity has the admin role; no such record
   * means 403.
   */
  function VerifyAdmin(decoded: Value, employees: seq<Doc>): (pass: bool)
    ensures pass <==> FirstWithEmailIsAdmin(employees, decoded)
    ensures !AnyMatch(employees, ByField("email", decoded)) ==> !pass
  {
    HasAdminRole(FindOne(employees, ByField("email", decoded)))
  }

  /** With unique emails, "the first record" is just "the record" with that email. */
  lemma VerifyAdminUnique(decoded: Value, employees: seq<Doc>, i: nat)
    requires EmailsUnique(employees)
    requires i < |employees| && Get(employees[i].fields, "email") == decoded
    ensures VerifyAdmin(decoded, employees) <==> Get(employees[i].fields, "role") == Str("admin")
  {
    if VerifyAdmin(decoded, employees) {
      var k :| 0 <= k < |employees| && Get(employees[k].fields, "email") == decoded
               && (forall j | 0 <= j < k :: Get(employees[j].fields, "email") != decoded)
               && Get(employees[k].fields, "role") == Str("admin");
      assert k == i;
    } else {
      assert forall j | 0 <= j < i :: Get(employees[j].fields, "email") != decoded;
    }
  }
}

=== FILE: attendance.dfy ===
/**
 * Handlers over the attendance collection: an employee's own history, opening
 * and closing a work session, and the administrator's filtered listing.
 * Listings are sorted by identifier, newest first.
 */
module Attendance {
  import opened Values
  import opened Collection
  import opened State
  import AttendanceQuery

  /**
   * Pairs every row with the same employee lookup, as `{...row, user}` does.
   * The reply object is the row's fields with `user` set to the lookup, so a
   * stored field named `user` is overwritten there; the pair keeps both.
   */
  function AttachUser(rows: seq<Doc>, user: Option<Doc>): (r: seq<WithUser>)
    ensures |r| == |rows|
    ensures forall i | 0 <= i < |rows| :: r[i].record == rows[i] && r[i].user == user
  {
    seq(|rows|, i requires 0 <= i < |rows| => WithUser(rows[i], user))
  }

  /** The records of the joined rows are exactly the rows. */
  lemma AttachUserRecords(rows: seq<Doc>, user: Option<Doc>)
    ensures forall d :: (exists w | w in AttachUser(rows, user) :: w.record == d) <==> d in rows
  {
    var joined := AttachUser(rows, user);
    forall d | d in rows ensures exists w | w in joined :: w.record == d {
      var k :| 0 <= k < |rows| && rows[k] == d;
      assert joined[k].record == d;
    }
  }

  /** In a store whose identifiers increase, a sorted listing is newest first. */
  lemma NewestFirst(s: Store, f: Filter)
    ensures Valid(s) ==> Decreasing(Reverse(FindAll(s.attendance, f)))
  {
    if Valid(s) {
      FindAllKeepsOrder(s.attendance, f);
      ReverseIsNewestFirst(FindAll(s.attendance, f));
    }
  }

  /**
   * GET /api/attendance/:email: the attendance rows carrying that email,
   * newest first, each joined with the first employee record for the email;
   * nothing is written.
   */
  function ListOwn(s: Store, email: string): (r: Outcome)
    ensures r.store == s
    ensures r.response.RecordsWithUser?
    ensures forall w | w in r.response.rows :: w.user == FindOne(s.employees, ByField("email", Str(email)))
    ensures forall d :: (exists w | w in r.response.rows :: w.record == d) <==>
                          d in s.attendance && Get(d.fields, "email") == Str(email)
    ensures Valid(s) ==> forall i, j | 0 <= i < j < |r.response.rows| ::
                           r.response.rows[i].record.id > r.response.rows[j].record.id
  {
    var filter := ByField("email", Str(email));
    var found := FindAll(s.attendance, filter);
    assert forall d :: d in found <==> d in s.attendance && Get(d.fields, "email") == Str(email);
    ReverseSameElements(found);
    NewestFirst(s, filter);
    var joined := AttachUser(Reverse(found), FindOne(s.employees, filter));
    AttachUserRecords(Reverse(found), FindOne(s.employees, filter));
    Outcome(RecordsWithUser(joined), s)
  }

  /**
   * POST /api/attendance: the payload is stored verbatim as a new session;
   * nothing else changes.
   */
  function OpenSession(s: Store, body: Fields): (r: Outcome)
    ensures r.response == InsertReply(s.nextId)
    ensures r.store.attendance == s.attendance + [Doc(s.nextId, body)]
    ensures r.store.employees == s.employees && r.store.nextId == s.nextId + 1
    ensures Valid(s) ==> Valid(r.store)
  {
    AddAttendance(s, body)
  }

  /** The two fields closing a session writes. */
  const CloseKeys: set<string> := {"endTime", "totalWork"}

  /**
   * PUT /api/attendance/:id: sets `endTime` and `totalWork` from the payload
   * on the session with that identifier. Every other field of it, every other
   * session and the employees stay as they were; an unknown identifier
   * changes nothing.
   */
  function CloseSession(s: Store, id: Id, body: Fields): (r: Outcome)
    ensures r.store.employees == s.employees && r.store.nextId == s.nextId
    ensures |r.store.attendance| == |s.attendance|
    ensures r.response == UpdateReply(if AnyMatch(s.attendance, ById(id)) then 1 else 0,
                                      if r.store.attendance != s.attendance then 1 else 0)
    ensures !AnyMatch(s.attendance, ById(id)) ==> r.store == s
    ensures forall i | 0 <= i < |s.attendance| && s.attendance[i].id != id ::
              r.store.attendance[i] == s.attendance[i]
    ensures forall i | 0 <= i < |s.attendance| && FirstMatch(s.attendance, ById(id)) == Some(i) ::
              && r.store.attendance[i].id == id
              && r.store.attendance[i].fields.Keys == s.attendance[i].fields.Keys + CloseKeys
              && Get(r.store.attendance[i].fields, "endTime") == Get(body, "endTime")
              && Get(r.store.attendance[i].fields, "totalWork") == Get(body, "totalWork")
              && (forall k | k !in CloseKeys ::
                    Get(r.store.attendance[i].fields, k) == Get(s.attendance[i].fields, k))
    ensures Valid(s) ==> Valid(r.store)
  {
    var updates := map["endTime" := Get(body, "endTime"), "totalWork" := Get(body, "totalWork")];
    assert updates.Keys == CloseKeys;
    var u := UpdateOne(s.attendance, ById(id), updates);
    var t := s.(attendance := u.docs);
    assert Valid(s) ==> Valid(t) by {
      if Valid(s) { UpdateOneKeepsOrder(s.attendance, ById(id), updates, s.nextId); }
    }
    Outcome(UpdateReply(u.matchedCount, u.modifiedCount), t)
  }

  /**
   * Closing a session with an empty payload still writes `endTime` and
   * `totalWork`, as nulls, and so reports the session as modified.
   */
  lemma CloseWritesNulls()
    ensures CloseSession(Store([], [Doc(0, map[])], 1), 0, map[]).response == UpdateReply(1, 1)
  {
    var s := Store([], [Doc(0, map[])], 1);
    assert Matches(s.attendance[0], ById(0));
    var r := CloseSession(s, 0, map[]);
    assert "endTime" in r.store.attendance[0].fields.Keys;
  }

  /**
   * GET /api/admin/attendance: the sessions the built query selects, newest
   * first; nothing is written.
   */
  function ListFiltered(s: Store, email: AttendanceQuery.Param, fromDate: AttendanceQuery.DateParam,
                        toDate: AttendanceQuery.DateParam): (r: Outcome)
    ensures r.store == s
    ensures r.response.Records?
    ensures forall d :: d in r.response.docs <==>
                          d in s.attendance && Matches(d, AttendanceQuery.Build(email, fromDate, toDate))
    ensures Valid(s) ==> Decreasing(r.response.docs)
  {
    var found := FindAll(s.attendance, AttendanceQuery.Build(email, fromDate, toDate));
    ReverseSameElements(found);
    NewestFirst(s, AttendanceQuery.Build(email, fromDate, toDate));
    Outcome(Records(Reverse(found)), s)
  }

  /** With no parameters the listing is every session, newest first. */
  lemma {:induction false} UnfilteredListsAll(s: Store)
    ensures ListFiltered(s, AttendanceQuery.Absent, AttendanceQuery.NoDate, AttendanceQuery.NoDate).response
            == Records(Reverse(s.attendance))
  {
    FindAllEverything(s.attendance);
  }
}

=== FILE: attendance_query.dfy ===
/**
 * The query an administrator's attendance listing sends to the store, built
 * from three optional query-string parameters: `email`, `fromDate` and
 * `toDate`. Each is judged by JavaScript truthiness, so an absent parameter
 * and an empty one behave alike.
 */
module AttendanceQuery {
  import opened Values
  import opened Collection

  /** A query-string parameter: absent, or the text given. */
  datatype Param = Absent | Given(text: string)
  {
    predicate Truthy()
    {
      Given? && text != ""
    }
  }

  /**
   * A date parameter: absent, or the text given together with the timestamp
   * that `new Date(parseInt(text)).getTime()` yields for it.
   */
  datatype DateParam = NoDate | DateGiven(text: string, time: int)
  {
    predicate Truthy()
    {
      DateGiven? && text != ""
    }
  }

  /**
   * The query object as the handler builds it, including its inner
   * email-and-dates branch, which the outer test has already ruled out.
   */
  function Build(email: Param, fromDate: DateParam, toDate: DateParam): (q: Filter)
    ensures fromDate.Truthy() && toDate.Truthy() ==> q == Between("date", fromDate.time, toDate.time)
    ensures !(fromDate.Truthy() && toDate.Truthy()) && email.Truthy() ==> q == ByField("email", Str(email.text))
    ensures !(fromDate.Truthy() && toDate.Truthy()) && !email.Truthy() ==> q == Everything
    ensures !q.Both?
  {
    if fromDate.Truthy() && toDate.Truthy() then
      Between("date", fromDate.time, toDate.time)
    else if !email.Truthy() then
      Everything
    else if email.Truthy() && fromDate.Truthy() && toDate.Truthy() then
      match (email, fromDate, toDate)
      case (Given(e), DateGiven(_, lo), DateGiven(_, hi)) =>
        Both(ByField("email", Str(e)), Between("date", lo, hi))
      case _ => Everything
    else if email.Truthy() then
      ByField("email", Str(email.text))
    else
      Everything
  }

  /**
   * The policy the handler actually implements, written without the dead
   * branch: dates win when both are given, then email, then nothing.
   */
  function Policy(email: Param, fromDate: DateParam, toDate: DateParam): Filter
  {
    match (fromDate, toDate)
    case (DateGiven(f, lo), DateGiven(t, hi)) =>
      if f != "" && t != "" then Between("date", lo, hi) else EmailPolicy(email)
    case _ => EmailPolicy(email)
  }

  function EmailPolicy(email: Param): Filter
  {
    match email
    case Given(e) => if e != "" then ByField("email", Str(e)) else Everything
    case Absent => Everything
  }

  /** The query built agrees with the three-case policy on every input. */
  lemma BuildIsPolicy(email: Param, fromDate: DateParam, toDate: DateParam)
    ensures Build(email, fromDate, toDate) == Policy(email, fromDate, toDate)
  {
  }

  /** With both dates given, the email parameter has no influence on the query. */
  lemma EmailIgnoredWithDates(e1: Param, e2: Param, fromDate: DateParam, toDate: DateParam)
    requires fromDate.Truthy() && toDate.Truthy()
    ensures Build(e1, fromDate, toDate) == Build(e2, fromDate, toDate)
  {
  }

  /** A single date on its own is ignored: the query is what it would be with no dates. */
  lemma LoneDateIgnored(email: Param, fromDate: DateParam, toDate: DateParam)
    requires !(fromDate.Truthy() && toDate.Truthy())
    ensures Build(email, fromDate, toDate) == Build(email, NoDate, NoDate)
  {
  }

  /** The documents the built query selects, stated without reference to `Build`. */
  lemma SelectsExactly(email: Param, fromDate: DateParam, toDate: DateParam, d: Doc)
    ensures Matches(d, Build(email, fromDate, toDate)) <==>
              if fromDate.Truthy() && toDate.Truthy() then
                Get(d.fields, "date").Num? && fromDate.time <= Get(d.fields, "date").n <= toDate.time
              else if email.Truthy() then
                Get(d.fields, "email") == Str(email.text)
              else
                true
  {
  }
}

=== FILE: collection.dfy ===
/**
 * A document collection as the service uses it: a sequence of documents in
 * insertion order, each with an identifier and string-keyed fields, and the
 * driver calls `findOne`, `find`, `updateOne`, `deleteOne` and `insertOne`
 * over it. A filter is a query object: the empty query, `{_id: id}`, a
 * one-field equality `{k: v}`, a numeric range `{k: {$gte: lo, $lte: hi}}`,
 * or the conjunction of two of these (an object with several keys).
 */
module Collection {
  import opened Values

  /** Abstract document identifier; the store hands them out in increasing order. */
  type Id = nat

  datatype Doc = Doc(id: Id, fields: Fields)

  datatype Filter =
    | Everything
    | ById(id: Id)
    | ByField(key: string, value: Value)
    | Between(key: string, lo: int, hi: int)
    | Both(left: Filter, right: Filter)

  predicate Matches(d: Doc, f: Filter)
  {
    match f
    case Everything => true
    case ById(i) => d.id == i
    case ByField(k, v) => Get(d.fields, k) == v
    case Between(k, lo, hi) => Get(d.fields, k).Num? && lo <= Get(d.fields, k).n <= hi
    case Both(a, b) => Matches(d, a) && Matches(d, b)
  }

  predicate AnyMatch(docs: seq<Doc>, f: Filter)
  {
    exists j | 0 <= j < |docs| :: Matches(docs[j], f)
  }

  /** Position of the first document the filter matches, if any. */
  function FirstMatch(docs: seq<Doc>, f: Filter): (r: Option<nat>)
    ensures r.None? <==> !AnyMatch(docs, f)
    ensures r.Some? ==> r.value < |docs| && Matches(docs[r.value], f)
    ensures r.Some? ==> forall j | 0 <= j < r.value :: !Matches(docs[j], f)
    decreases |docs|
  {
    if |docs| == 0 then None
    else if Matches(docs[0], f) then Some(0)
    else
      match FirstMatch(docs[1..], f)
      case None => None
      case Some(i) => Some(i + 1)
  }

  /** `findOne(filter)`: the first matching document in insertion order. */
  function FindOne(docs: seq<Doc>, f: Filter): (r: Option<Doc>)
    ensures r.Some? <==> AnyMatch(docs, f)
    ensures r.Some? ==> r.value in docs && Matches(r.value, f)
    ensures r.Some? ==> exists i | 0 <= i < |docs| :: docs[i] == r.value && forall j | 0 <= j < i :: !Matches(docs[j], f)
  {
    match FirstMatch(docs, f)
    case None => None
    case Some(i) => Some(docs[i])
  }

  /** `find(filter)` before sorting: the matching documents, in insertion order. */
  function FindAll(docs: seq<Doc>, f: Filter): (r: seq<Doc>)
    ensures |r| <= |docs|
    ensures multiset(r) <= multiset(docs)
    ensures forall d :: d in r <==> d in docs && Matches(d, f)
    decreases |docs|
  {
    if |docs| == 0 then []
    else
      assert docs == [docs[0]] + docs[1..];
      if Matches(docs[0], f) then [docs[0]] + FindAll(docs[1..], f)
      else FindAll(docs[1..], f)
  }

  /** The empty query `{}` selects every document, in stored order. */
  lemma {:induction false} FindAllEverything(docs: seq<Doc>)
    ensures FindAll(docs, Everything) == docs
    decreases |docs|
  {
    if |docs| > 0 {
      FindAllEverything(docs[1..]);
      assert docs == [docs[0]] + docs[1..];
    }
  }

  function Reverse<T>(s: seq<T>): (r: seq<T>)
    ensures |r| == |s|
    ensures forall i | 0 <= i < |s| :: r[i] == s[|s| - 1 - i]
    decreases |s|
  {
    if |s| == 0 then [] else Reverse(s[1..]) + [s[0]]
  }

  /** Reversing keeps exactly the same elements. */
  lemma ReverseSameElements<T>(s: seq<T>)
    ensures forall x :: x in Reverse(s) <==> x in s
  {
    var r := Reverse(s);
    forall x | x in s ensures x in r {
      var k :| 0 <= k < |s| && s[k] == x;
      assert r[|s| - 1 - k] == x;
    }
  }

  /** Identifiers strictly increase along the collection: the insertion-order invariant. */
  predicate Increasing(docs: seq<Doc>)
  {
    forall i, j | 0 <= i < j < |docs| :: docs[i].id < docs[j].id
  }

  /** Identifiers strictly decrease: the order `sort({_id: -1})` produces. */
  predicate Decreasing(docs: seq<Doc>)
  {
    forall i, j | 0 <= i < j < |docs| :: docs[i].id > docs[j].id
  }

  predicate IdsBelow(docs: seq<Doc>, bound: nat)
  {
    forall i | 0 <= i < |docs| :: docs[i].id < bound
  }

  /**
   * In a collection whose identifiers increase with insertion, reverse
   * insertion order is exactly the newest-first order of `sort({_id: -1})`.
   */
  lemma ReverseIsNewestFirst(docs: seq<Doc>)
    requires Increasing(docs)
    ensures Decreasing(Reverse(docs))
  {
  }

  /** Keeping only the matching documents keeps their relative order. */
  lemma {:induction false} FindAllKeepsOrder(docs: seq<Doc>, f: Filter)
    requires Increasing(docs)
    ensures Increasing(FindAll(docs, f))
    decreases |docs|
  {
    if |docs| > 0 {
      FindAllKeepsOrder(docs[1..], f);
      FindAllAbove(docs[1..], f, docs[0].id);
      PrependKeepsIncreasing(docs[0], FindAll(docs[1..], f));
    }
  }

  /** A first document below every other keeps the order increasing. */
  lemma PrependKeepsIncreasing(d: Doc, tail: seq<Doc>)
    requires Increasing(tail)
    requires forall i | 0 <= i < |tail| :: d.id < tail[i].id
    ensures Increasing([d] + tail)
  {
    var r := [d] + tail;
    forall i, j | 0 <= i < j < |r| ensures r[i].id < r[j].id {
      assert r[j] == tail[j - 1];
      if i > 0 { assert r[i] == tail[i - 1]; }
    }
  }

  /** Filtering never brings in an identifier at or below a bound all documents exceed. */
  lemma {:induction false} FindAllAbove(docs: seq<Doc>, f: Filter, bound: nat)
    requires forall i | 0 <= i < |docs| :: bound < docs[i].id
    ensures forall i | 0 <= i < |FindAll(docs, f)| :: bound < FindAll(docs, f)[i].id
    decreases |docs|
  {
    if |docs| > 0 {
      FindAllAbove(docs[1..], f, bound);
      var tail := FindAll(docs[1..], f);
      if Matches(docs[0], f) {
        var r := [docs[0]] + tail;
        assert FindAll(docs, f) == r;
        assert forall j | 1 <= j < |r| :: r[j] == tail[j - 1];
      } else {
        assert FindAll(docs, f) == tail;
      }
    }
  }

  /** In a collection with distinct identifiers, `{_id: id}` matches at most one document. */
  lemma IdMatchIsUnique(docs: seq<Doc>, id: Id, i: nat)
    requires Increasing(docs)
    requires i < |docs| && docs[i].id == id
    ensures FirstMatch(docs, ById(id)) == Some(i)
    ensures forall j | 0 <= j < |docs| && j != i :: !Matches(docs[j], ById(id))
  {
  }

  datatype Updated = Updated(docs: seq<Doc>, matchedCount: nat, modifiedCount: nat)

  /**
   * `updateOne(filter, {$set: updates})`: the first matching document gets
   * the update keys, nothing else changes anywhere; the counts report whether
   * a document matched and whether its contents actually changed.
   */
  function UpdateOne(docs: seq<Doc>, f: Filter, updates: Fields): (r: Updated)
    ensures |r.docs| == |docs|
    ensures !AnyMatch(docs, f) ==> r.docs == docs
    ensures r.matchedCount == if AnyMatch(docs, f) then 1 else 0
    ensures r.modifiedCount == if r.docs != docs then 1 else 0
    ensures forall i | 0 <= i < |docs| :: r.docs[i].id == docs[i].id
    ensures AnyMatch(docs, f) ==>
              var i := FirstMatch(docs, f).value;
              r.docs[i] == Doc(docs[i].id, Assign(docs[i].fields, updates))
    ensures forall i | 0 <= i < |docs| && FirstMatch(docs, f) != Some(i) :: r.docs[i] == docs[i]
  {
    match FirstMatch(docs, f)
    case None => Updated(docs, 0, 0)
    case Some(i) =>
      var d := Doc(docs[i].id, Assign(docs[i].fields, updates));
      var changed := d != docs[i];
      assert !changed ==> docs[i := d] == docs;
      assert changed ==> docs[i := d][i] != docs[i];
      Updated(docs[i := d], 1, if changed then 1 else 0)
  }

  /** An update keeps every identifier in place, and with them the insertion-order invariant. */
  lemma UpdateOneKeepsOrder(docs: seq<Doc>, f: Filter, updates: Fields, bound: nat)
    requires Increasing(docs) && IdsBelow(docs, bound)
    ensures var r := UpdateOne(docs, f, updates).docs;
            Increasing(r) && IdsBelow(r, bound)
  {
    var r := UpdateOne(docs, f, updates).docs;
    assert forall i | 0 <= i < |r| :: r[i].id == docs[i].id;
  }

  datatype Deleted = Deleted(docs: seq<Doc>, deletedCount: nat)

  /** `deleteOne(filter)`: the first matching document is removed, the rest keep their order. */
  function DeleteOne(docs: seq<Doc>, f: Filter): (r: Deleted)
    ensures !AnyMatch(docs, f) ==> r.docs == docs && r.deletedCount == 0
    ensures AnyMatch(docs, f) ==> r.deletedCount == 1 && |r.docs| == |docs| - 1
    ensures AnyMatch(docs, f) ==>
              var i := FirstMatch(docs, f).value;
              (forall j | 0 <= j < i :: r.docs[j] == docs[j])
              && (forall j | i <= j < |r.docs| :: r.docs[j] == docs[j + 1])
  {
    match FirstMatch(docs, f)
    case None => Deleted(docs, 0)
    case Some(i) => Deleted(docs[..i] + docs[i + 1..], 1)
  }

  /** Deleting by identifier from a collection with distinct identifiers removes exactly that document. */
  lemma DeleteByIdRemovesExactly(docs: seq<Doc>, id: Id)
    requires Increasing(docs)
    ensures var r := DeleteOne(docs, ById(id)).docs;
            Increasing(r)
            && forall d :: d in r <==> d in docs && d.id != id
  {
    if AnyMatch(docs, ById(id)) {
      var i := FirstMatch(docs, ById(id)).value;
      assert DeleteOne(docs, ById(id)).docs == docs[..i] + docs[i + 1..];
      RemoveAtKeepsIncreasing(docs, i);
      RemoveAtMembers(docs, i);
    }
  }

  /** Removing position `i` keeps exactly the documents with another identifier. */
  lemma RemoveAtMembers(docs: seq<Doc>, i: nat)
    requires Increasing(docs) && i < |docs|
    ensures forall d :: d in docs[..i] + docs[i + 1..] <==> d in docs && d.id != docs[i].id
  {
    var before, after := docs[..i], docs[i + 1..];
    forall d | d in docs && d.id != docs[i].id ensures d in before || d in after {
      var k :| 0 <= k < |docs| && docs[k] == d;
      if k < i { assert before[k] == d; } else { assert after[k - i - 1] == d; }
    }
    forall d | d in before ensures d in docs && d.id < docs[i].id {
      var k :| 0 <= k < |before| && before[k] == d;
      assert docs[k] == d;
    }
    forall d | d in after ensures d in docs && d.id > docs[i].id {
      var k :| 0 <= k < |after| && after[k] == d;
      assert docs[k + i + 1] == d;
    }
  }


  lemma RemoveAtKeepsIncreasing(docs: seq<Doc>, i: nat)
    requires Increasing(docs) && i < |docs|
    ensures Increasing(docs[..i] + docs[i + 1..])
  {
    var r := docs[..i] + docs[i + 1..];
    forall a, b | 0 <= a < b < |r| ensures r[a].id < r[b].id {
      var a' := if a < i then a else a + 1;
      var b' := if b < i then b else b + 1;
      assert r[a] == docs[a'] && r[b] == docs[b'];
    }
  }

  /** `insertOne(fields)` with a fresh identifier: appended at the end. */
  function InsertOne(docs: seq<Doc>, id: Id, fields: Fields): (r: seq<Doc>)
    ensures |r| == |docs| + 1 && r[..|docs|] == docs
    ensures r[|docs|] == Doc(id, fields)
    ensures Increasing(docs) && IdsBelow(docs, id) ==> Increasing(r)
  {
    docs + [Doc(id, fields)]
  }
}

=== FILE: employee_id.dfy ===
/**
 * The human-readable employee identifier: the prefix "#B&V" followed by the
 * number of employees already stored plus one, written in decimal and
 * left-padded with '0' to at least two digits.
 */
module EmployeeId {
  import opened Values
  import opened Text

  const Prefix: string := "#B&V"

  /** Identifier given to the employee created when `count` employees are stored. */
  function Format(count: nat): (id: string)
    ensures |id| >= 6 && id[..4] == Prefix
    ensures AllDigits(id[4..])
    ensures count + 1 < 10 ==> |id| == 6 && id[4] == '0' && id[5] == DigitChar(count + 1)
    ensures count + 1 >= 10 ==> id[4..] == Decimal(count + 1)
  {
    var digits := Decimal(count + 1);
    var padded := PadStart(digits, 2, '0');
    assert AllDigits(padded) by {
      forall i | 0 <= i < |padded| ensures IsDigit(padded[i]) {
        if i >= |padded| - |digits| {
          assert padded[i] == digits[i - (|padded| - |digits|)];
        }
      }
    }
    var id := Prefix + padded;
    assert id[4..] == padded;
    id
  }

  /** Reads the employee number back out of an identifier of this shape. */
  function Number(id: string): Option<nat>
  {
    if |id| > 4 && id[..4] == Prefix && AllDigits(id[4..]) then Some(ParseDecimal(id[4..])) else None
  }

  /** The identifier for `count` stored employees carries the number `count + 1`. */
  lemma NumberOfFormat(count: nat)
    ensures Number(Format(count)) == Some(count + 1)
  {
    var id := Format(count);
    var digits := Decimal(count + 1);
    ParseDecimalOfDecimal(count + 1);
    if count + 1 < 10 {
      assert id[4..] == "0" + digits;
      ParseDecimalLeadingZero(digits);
    }
  }

  /** Different counts never produce the same identifier. */
  lemma FormatInjective(a: nat, b: nat)
    requires Format(a) == Format(b)
    ensures a == b
  {
    NumberOfFormat(a);
    NumberOfFormat(b);
  }
}

=== FILE: employees.dfy ===
/**
 * Handlers that read or change the employee collection, each a pure function
 * from the request's parameters and the store to the reply and the new store.
 * Admin-only handlers assume the access chain has already let the request in.
 */
module Employees {
  import opened Values
  import opened Collection
  import opened State
  import EmployeeId

  function EmailOf(fields: Fields): Value
  {
    Get(fields, "email")
  }

  predicate EmailTaken(employees: seq<Doc>, email: Value)
  {
    AnyMatch(employees, ByField("email", email))
  }

  /**
   * POST /api/usersexist/:email: tells whether an employee with that email
   * has been provisioned; nothing is written.
   */
  function UserExists(s: Store, email: string): (r: Outcome)
    ensures r.store == s
    ensures r.response.UserExistReply?
    ensures r.response.isUserExist <==> exists d | d in s.employees :: EmailOf(d.fields) == Str(email)
    ensures r.response.message == if r.response.isUserExist then PleaseRegisterMessage else NoAccessMessage
  {
    match FindOne(s.employees, ByField("email", Str(email)))
    case None => Outcome(UserExistReply(false, NoAccessMessage), s)
    case Some(_) => Outcome(UserExistReply(true, PleaseRegisterMessage), s)
  }

  /**
   * PUT /api/users, the account claim. An existing email is turned away;
   * otherwise the `$set` update is sent with the very filter that just found
   * nothing, so it matches no document. Either way the store is unchanged.
   */
  function ClaimAccount(s: Store, body: Fields): (r: Outcome)
    ensures r.store == s
    ensures EmailTaken(s.employees, EmailOf(body)) ==> r.response == UserExistReply(true, NoAccessMessage)
    ensures !EmailTaken(s.employees, EmailOf(body)) ==> r.response == UpdateReply(0, 0)
  {
    var filter := ByField("email", EmailOf(body));
    match FindOne(s.employees, filter)
    case Some(_) => Outcome(UserExistReply(true, NoAccessMessage), s)
    case None =>
      var updates := map["email" := EmailOf(body), "phone" := Get(body, "phone"),
                          "image" := Get(body, "image"), "isAccount" := Bool(true)];
      var u := UpdateOne(s.employees, filter, updates);
      Outcome(UpdateReply(u.matchedCount, u.modifiedCount), s.(employees := u.docs))
  }

  /** GET /api/admin/employee: every employee record, in stored order; nothing is written. */
  function ListEmployees(s: Store): (r: Outcome)
    ensures r.store == s
    ensures r.response.Records? && r.response.docs == s.employees
  {
    FindAllEverything(s.employees);
    Outcome(Records(FindAll(s.employees, Everything)), s)
  }

  /** The fields the create handler sets whatever the payload says. */
  const ForcedKeys: set<string> := {"employeeId", "role", "image", "isAccount"}

  /** The payload with the server-assigned fields, `employeeId` among them, written over it. */
  function NewEmployeeFields(body: Fields, employeeId: string): (f: Fields)
    ensures f.Keys == body.Keys + ForcedKeys
    ensures forall k | k !in ForcedKeys :: Get(f, k) == Get(body, k)
    ensures EmailOf(f) == EmailOf(body)
    ensures Get(f, "employeeId") == Str(employeeId)
    ensures Get(f, "role") == Str("employee")
    ensures Get(f, "image") == Str("")
    ensures Get(f, "isAccount") == Bool(false)
  {
    var forced := map["employeeId" := Str(employeeId), "role" := Str("employee"), "image" := Str(""),
                      "isAccount" := Bool(false)];
    assert forced.Keys == ForcedKeys;
    assert "email" !in forced;
    Assign(body, forced)
  }

  /**
   * POST /api/admin/employee. A payload whose email is already stored is
   * turned away with the store unchanged; otherwise exactly one record is
   * appended: the payload with a sequential employee identifier, the
   * "employee" role, an empty image and no account yet.
   */
  function CreateEmployee(s: Store, body: Fields): (r: Outcome)
    ensures EmailTaken(s.employees, EmailOf(body)) ==>
              r.store == s && r.response == EmailExistReply(EmailTakenMessage)
    ensures !EmailTaken(s.employees, EmailOf(body)) ==>
              && r.response == InsertReply(s.nextId)
              && r.store.employees ==
                   s.employees + [Doc(s.nextId, NewEmployeeFields(body, EmployeeId.Format(|s.employees|)))]
              && r.store.attendance == s.attendance && r.store.nextId == s.nextId + 1
    ensures EmailsUnique(s.employees) ==> EmailsUnique(r.store.employees)
    ensures Valid(s) ==> Valid(r.store)
  {
    var data := NewEmployeeFields(body, EmployeeId.Format(|s.employees|));
    match FindOne(s.employees, ByField("email", EmailOf(data)))
    case Some(_) => Outcome(EmailExistReply(EmailTakenMessage), s)
    case None =>
      assert EmailsUnique(s.employees) ==> EmailsUnique(s.employees + [Doc(s.nextId, data)]) by {
        if EmailsUnique(s.employees) { AppendFreshEmail(s.employees, Doc(s.nextId, data)); }
      }
      AddEmployee(s, data)
  }

  /** Appending a record whose email no stored record has keeps emails unique. */
  lemma AppendFreshEmail(employees: seq<Doc>, d: Doc)
    requires EmailsUnique(employees)
    requires !EmailTaken(employees, EmailOf(d.fields))
    ensures EmailsUnique(employees + [d])
  {
    var r := employees + [d];
    forall i, j | 0 <= i < j < |r| ensures EmailOf(r[i].fields) != EmailOf(r[j].fields) {
      assert r[i] == employees[i];
      if j == |employees| {
        assert !Matches(employees[i], ByField("email", EmailOf(d.fields)));
      } else {
        assert r[j] == employees[j];
      }
    }
  }

  /** The four profile fields an admin edit overwrites. */
  const ProfileKeys: set<string> := {"name", "designation", "email", "phone"}

  function ProfileUpdate(body: Fields): (u: Fields)
    ensures u.Keys == ProfileKeys
    ensures forall k | k in ProfileKeys :: u[k] == Get(body, k)
  {
    map["name" := Get(body, "name"), "designation" := Get(body, "designation"),
        "email" := Get(body, "email"), "phone" := Get(body, "phone")]
  }

  /**
   * PUT /api/admin/employee/:id. Rejected with the store unchanged when any
   * record already has the new email, the edited record itself included;
   * otherwise only name, designation, email and phone of the record with
   * that identifier change.
   */
  function UpdateEmployee(s: Store, id: Id, body: Fields): (r: Outcome)
    ensures EmailTaken(s.employees, EmailOf(body)) ==>
              r.store == s && r.response == EmailExistReply(EmailTakenMessage)
    ensures !EmailTaken(s.employees, EmailOf(body)) ==>
              && r.store.attendance == s.attendance && r.store.nextId == s.nextId
              && |r.store.employees| == |s.employees|
              && r.response == UpdateReply(if AnyMatch(s.employees, ById(id)) then 1 else 0,
                                           if r.store.employees != s.employees then 1 else 0)
              && (!AnyMatch(s.employees, ById(id)) ==> r.store == s)
              && (forall i | 0 <= i < |s.employees| && s.employees[i].id != id ::
                    r.store.employees[i] == s.employees[i])
              && (forall i | 0 <= i < |s.employees| && FirstMatch(s.employees, ById(id)) == Some(i) ::
                    && r.store.employees[i].id == id
                    && r.store.employees[i].fields.Keys == s.employees[i].fields.Keys + ProfileKeys
                    && (forall k | k in ProfileKeys :: Get(r.store.employees[i].fields, k) == Get(body, k))
                    && (forall k | k !in ProfileKeys ::
                          Get(r.store.employees[i].fields, k) == Get(s.employees[i].fields, k)))
    ensures EmailsUnique(s.employees) ==> EmailsUnique(r.store.employees)
    ensures Valid(s) ==> Valid(r.store)
  {
    if FindOne(s.employees, ByField("email", EmailOf(body))).Some? then
      Outcome(EmailExistReply(EmailTakenMessage), s)
    else
      var u := UpdateOne(s.employees, ById(id), ProfileUpdate(body));
      var t := s.(employees := u.docs);
      assert Valid(s) ==> Valid(t) by {
        if Valid(s) { UpdateOneKeepsOrder(s.employees, ById(id), ProfileUpdate(body), s.nextId); }
      }
      assert EmailsUnique(s.employees) ==> EmailsUnique(u.docs) by {
        if EmailsUnique(s.employees) { UpdateKeepsEmailsUnique(s.employees, id, body); }
      }
      Outcome(UpdateReply(u.matchedCount, u.modifiedCount), t)
  }

  lemma UpdateKeepsEmailsUnique(employees: seq<Doc>, id: Id, body: Fields)
    requires EmailsUnique(employees)
    requires !EmailTaken(employees, EmailOf(body))
    ensures EmailsUnique(UpdateOne(employees, ById(id), ProfileUpdate(body)).docs)
  {
    var r := UpdateOne(employees, ById(id), ProfileUpdate(body)).docs;
    forall i, j | 0 <= i < j < |r| ensures EmailOf(r[i].fields) != EmailOf(r[j].fields) {
      if r[i] != employees[i] {
        assert EmailOf(r[i].fields) == EmailOf(body);
        assert r[j] == employees[j];
        assert !Matches(employees[j], ByField("email", EmailOf(body)));
      } else if r[j] != employees[j] {
        assert EmailOf(r[j].fields) == EmailOf(body);
        assert !Matches(employees[i], ByField("email", EmailOf(body)));
      }
    }
  }

  /**
   * The edit is refused whenever the new email is the one the record already
   * has, so an admin can never edit a record while keeping its email.
   */
  lemma UpdateRejectsUnchangedEmail(s: Store, i: nat, body: Fields)
    requires i < |s.employees| && EmailOf(body) == EmailOf(s.employees[i].fields)
    ensures UpdateEmployee(s, s.employees[i].id, body) == Outcome(EmailExistReply(EmailTakenMessage), s)
  {
    assert Matches(s.employees[i], ByField("email", EmailOf(body)));
  }

  /**
   * DELETE /api/admin/employee/:id: the record with that identifier is
   * removed, every other record stays, in the same order.
   */
  function DeleteEmployee(s: Store, id: Id): (r: Outcome)
    ensures r.store.attendance == s.attendance && r.store.nextId == s.nextId
    ensures r.response == DeleteReply(if AnyMatch(s.employees, ById(id)) then 1 else 0)
    ensures !AnyMatch(s.employees, ById(id)) ==> r.store == s
    ensures AnyMatch(s.employees, ById(id)) ==> |r.store.employees| == |s.employees| - 1
    ensures Valid(s) ==> forall d :: d in r.store.employees <==> d in s.employees && d.id != id
    ensures EmailsUnique(s.employees) ==> EmailsUnique(r.store.employees)
    ensures Valid(s) ==> Valid(r.store)
  {
    var del := DeleteOne(s.employees, ById(id));
    var t := s.(employees := del.docs);
    assert Valid(s) ==> Valid(t) by {
      if Valid(s) {
        DeleteByIdRemovesExactly(s.employees, id);
      }
    }
    assert EmailsUnique(s.employees) ==> EmailsUnique(del.docs) by {
      if EmailsUnique(s.employees) { DeleteKeepsEmailsUnique(s.employees, ById(id)); }
    }
    Outcome(DeleteReply(del.deletedCount), t)
  }

  lemma DeleteKeepsEmailsUnique(employees: seq<Doc>, f: Filter)
    requires EmailsUnique(employees)
    ensures EmailsUnique(DeleteOne(employees, f).docs)
  {
    var r := DeleteOne(employees, f).docs;
    if AnyMatch(employees, f) {
      var k := FirstMatch(employees, f).value;
      forall i, j | 0 <= i < j < |r| ensures EmailOf(r[i].fields) != EmailOf(r[j].fields) {
        assert r[i] == employees[if i < k then i else i + 1];
        assert r[j] == employees[if j < k then j else j + 1];
      }
    }
  }

  /**
   * Identifiers come from the live count. When the newest of `n` records was
   * created after the other `n - 1` and so holds `Format(n - 1)`, deleting
   * any other employee and then creating one hands the new record that same
   * `employeeId`: two stored records now share it, under different document
   * identifiers.
   */
  lemma IdReusedAfterDelete(s: Store, i: nat, body: Fields)
    requires Valid(s)
    requires i + 1 < |s.employees|
    requires !EmailTaken(s.employees, EmailOf(body))
    requires Get(s.employees[|s.employees| - 1].fields, "employeeId") == Str(EmployeeId.Format(|s.employees| - 1))
    ensures var after := CreateEmployee(DeleteEmployee(s, s.employees[i].id).store, body).store.employees;
            var n := |s.employees|;
            && |after| == n
            && after[n - 2] == s.employees[n - 1]
            && after[n - 1].id != after[n - 2].id
            && Get(after[n - 1].fields, "employeeId") == Str(EmployeeId.Format(n - 1))
            && Get(after[n - 2].fields, "employeeId") == Get(after[n - 1].fields, "employeeId")
  {
    var t := DeleteEmployee(s, s.employees[i].id).store;
    DeleteEmployeeStore(s, s.employees[i].id);
    DeleteOlderKeepsNewest(s.employees, i, EmailOf(body));
    CreateAppendsCounted(t, body);
    var after := CreateEmployee(t, body).store.employees;
    assert after[|s.employees| - 2] == after[..|t.employees|][|s.employees| - 2];
  }

  /** An accepted create appends one record whose identifier is formatted from the count before it. */
  lemma CreateAppendsCounted(t: Store, body: Fields)
    requires !EmailTaken(t.employees, EmailOf(body))
    ensures var after := CreateEmployee(t, body).store.employees;
            var m := |t.employees|;
            && |after| == m + 1 && after[..m] == t.employees
            && after[m].id == t.nextId
            && Get(after[m].fields, "employeeId") == Str(EmployeeId.Format(m))
  {
    var after := CreateEmployee(t, body).store.employees;
    assert after == t.employees + [Doc(t.nextId, NewEmployeeFields(body, EmployeeId.Format(|t.employees|)))];
  }

  /** The store a delete leaves: the employee collection after `deleteOne`, nothing else touched. */
  lemma DeleteEmployeeStore(s: Store, id: Id)
    ensures DeleteEmployee(s, id).store == s.(employees := DeleteOne(s.employees, ById(id)).docs)
  {
  }

  /**
   * Deleting a record other than the newest keeps the newest one last and
   * makes no free email taken.
   */
  lemma DeleteOlderKeepsNewest(docs: seq<Doc>, i: nat, email: Value)
    requires Increasing(docs)
    requires i + 1 < |docs|
    requires !EmailTaken(docs, email)
    ensures var r := DeleteOne(docs, ById(docs[i].id)).docs;
            && |r| == |docs| - 1
            && r[|r| - 1] == docs[|docs| - 1]
            && !EmailTaken(r, email)
  {
    var id := docs[i].id;
    IdMatchIsUnique(docs, id, i);
    var r := DeleteOne(docs, ById(id)).docs;
    assert r[|r| - 1] == docs[|docs| - 1];
    forall j | 0 <= j < |r| ensures !Matches(r[j], ByField("email", email)) {
      assert r[j] == docs[if j < i then j else j + 1];
    }
  }

}

=== FILE: server.dfy ===
/**
 * The routes of the service, each with the middleware chain in front of it,
 * as one function from a request and the store to the reply and the new
 * store. The token-signature check is the oracle `verify`.
 */
module Server {
  import opened Values
  import opened Collection
  import opened State
  import opened Access
  import Employees
  import Attendance
  import AttendanceQuery

  /** Routes reachable without a token. */
  datatype PublicCall =
    | UserExists(email: string)                  // POST /api/usersexist/:email
    | ClaimAccount(body: Fields)                 // PUT /api/users

  /** Routes behind `verifyJWT`; the admin ones also behind `verifyAdmin`. */
  datatype GuardedCall =
    | AdminCheck(email: string)                  // GET /api/users/admin/:email
    | ListOwnAttendance(email: string)           // GET /api/attendance/:email
    | OpenSession(body: Fields)                  // POST /api/attendance
    | CloseSession(id: Id, body: Fields)         // PUT /api/attendance/:id
    | ListEmployees                              // GET /api/admin/employee
    | CreateEmployee(body: Fields)               // POST /api/admin/employee
    | UpdateEmployee(id: Id, body: Fields)       // PUT /api/admin/employee/:id
    | DeleteEmployee(id: Id)                     // DELETE /api/admin/employee/:id
    | ListAttendance(emailParam: AttendanceQuery.Param, fromDate: AttendanceQuery.DateParam,
                     toDate: AttendanceQuery.DateParam)  // GET /api/admin/attendance
  {
    predicate AdminOnly()
    {
      ListEmployees? || CreateEmployee? || UpdateEmployee? || DeleteEmployee? || ListAttendance?
    }
  }

  datatype Request = Public(call: PublicCall) | Guarded(auth: Header, guarded: GuardedCall)

  /**
   * The route handler proper, once the chain in front of it has called
   * `next()`. Attendance routes leave the employees alone, employee routes
   * leave the attendance alone, and every route keeps both store invariants.
   */
  function Route(c: GuardedCall, decoded: Value, s: Store): (r: Outcome)
    ensures !c.AdminOnly() || c.ListAttendance? ==> r.store.employees == s.employees
    ensures (c.AdminOnly() && !c.ListAttendance?) || c.AdminCheck? ==> r.store.attendance == s.attendance
    ensures Valid(s) ==> Valid(r.store)
    ensures EmailsUnique(s.employees) ==> EmailsUnique(r.store.employees)
  {
    match c
    case AdminCheck(email) => Outcome(AdminReply(Access.AdminCheck(decoded, email, s.employees)), s)
    case ListOwnAttendance(email) => Attendance.ListOwn(s, email)
    case OpenSession(body) => Attendance.OpenSession(s, body)
    case CloseSession(id, body) => Attendance.CloseSession(s, id, body)
    case ListEmployees => Employees.ListEmployees(s)
    case CreateEmployee(body) => Employees.CreateEmployee(s, body)
    case UpdateEmployee(id, body) => Employees.UpdateEmployee(s, id, body)
    case DeleteEmployee(id) => Employees.DeleteEmployee(s, id)
    case ListAttendance(email, fromDate, toDate) => Attendance.ListFiltered(s, email, fromDate, toDate)
  }

  /**
   * One request through its chain. The client receives the first reply
   * written: once `verifyJWT` has written 401 for a bad token, a later reply
   * fails to send, but a handler reached through `next()` still writes to the
   * store. A 403 from `verifyAdmin` ends the chain before the handler. The
   * exception the failed send raises, and what it does to the process, are
   * not part of the model: the outcome is the reply the client saw and the
   * store as the handler left it.
   */
  function Handle(req: Request, s: Store, verify: string -> Option<Value>): (r: Outcome)
    ensures req.Guarded? && VerifyJwt(req.auth, verify).Halt? ==> r == Outcome(Unauthorized, s)
    ensures req.Guarded? && VerifyJwt(req.auth, verify).Proceed? && VerifyJwt(req.auth, verify).sent.Some? ==>
              r.response == Unauthorized
    ensures Valid(s) ==> Valid(r.store)
    ensures EmailsUnique(s.employees) ==> EmailsUnique(r.store.employees)
  {
    match req
    case Public(UserExists(email)) => Employees.UserExists(s, email)
    case Public(ClaimAccount(body)) => Employees.ClaimAccount(s, body)
    case Guarded(auth, c) =>
      match VerifyJwt(auth, verify)
      case Halt(reply) => Outcome(reply, s)
      case Proceed(decoded, sent) =>
        if c.AdminOnly() && !VerifyAdmin(decoded, s.employees) then
          Outcome(if sent.Some? then sent.value else Forbidden, s)
        else
          var o := Route(c, decoded, s);
          Outcome(if sent.Some? then sent.value else o.response, o.store)
  }

  /**
   * The decoded identity when the chain lets the handler run with nothing
   * written yet: the token verified and, on an admin route, the caller is an
   * administrator. Otherwise `None`.
   */
  function Authorised(s: Store, auth: Header, verify: string -> Option<Value>, c: GuardedCall): (decoded: Option<Value>)
  {
    match VerifyJwt(auth, verify)
    case Proceed(d, None) => if !c.AdminOnly() || VerifyAdmin(d, s.employees) then Some(d) else None
    case _ => None
  }

  /** Without an `Authorization` header no guarded route runs or writes. */
  lemma NoHeaderNoEffect(s: Store, c: GuardedCall, verify: string -> Option<Value>)
    ensures Handle(Guarded(NoHeader, c), s, verify) == Outcome(Unauthorized, s)
  {
  }

  /**
   * A caller with a valid token who is not an administrator is refused
   * every admin route with 403, and nothing is written.
   */
  lemma NonAdminForbidden(s: Store, auth: Header, verify: string -> Option<Value>, c: GuardedCall)
    requires c.AdminOnly()
    requires VerifyJwt(auth, verify).Proceed? && VerifyJwt(auth, verify).sent.None?
    requires !FirstWithEmailIsAdmin(s.employees, VerifyJwt(auth, verify).decoded)
    ensures Handle(Guarded(auth, c), s, verify) == Outcome(Forbidden, s)
  {
  }

  /**
   * A token that fails verification still reaches a non-admin handler: the
   * client is told 401, yet a new session is stored exactly as with a good
   * token.
   */
  lemma BadTokenStillOpensSession(s: Store, text: string, verify: string -> Option<Value>, body: Fields)
    requires text != ""
    requires var t := BearerToken(text); t.None? || t.value == "" || verify(t.value).None?
    ensures var r := Handle(Guarded(Header(text), OpenSession(body)), s, verify);
            && r.response == Unauthorized
            && r.store.attendance == s.attendance + [Doc(s.nextId, body)]
  {
  }

  /** A token that verifies runs the handler with the decoded identity, unchanged. */
  lemma GoodTokenRunsHandler(s: Store, auth: Header, verify: string -> Option<Value>, c: GuardedCall)
    requires Authorised(s, auth, verify, c).Some?
    ensures Handle(Guarded(auth, c), s, verify) == Route(c, Authorised(s, auth, verify, c).value, s)
  {
  }

  /** Attendance routes never touch the employee collection. */
  lemma AttendanceRoutesKeepEmployees(s: Store, auth: Header, verify: string -> Option<Value>, c: GuardedCall)
    requires !c.AdminOnly() || c.ListAttendance?
    ensures Handle(Guarded(auth, c), s, verify).store.employees == s.employees
  {
  }

  /** Employee routes never touch the attendance collection. */
  lemma EmployeeRoutesKeepAttendance(s: Store, req: Request, verify: string -> Option<Value>)
    requires req.Public? || (req.guarded.AdminOnly() && !req.guarded.ListAttendance?) || req.guarded.AdminCheck?
    ensures Handle(req, s, verify).store.attendance == s.attendance
  {
  }
}

=== FILE: state.dfy ===
/**
 * The service's persistent state and its replies. The state is the two
 * collections of the "AttendanceTask" database, `users` (employees) and
 * `attendance`, plus the next fresh document identifier.
 */
module State {
  import opened Values
  import opened Collection

  datatype Store = Store(employees: seq<Doc>, attendance: seq<Doc>, nextId: nat)

  /**
   * Identifiers are handed out in increasing order: every stored identifier
   * is below `nextId`, and each collection lists its documents oldest first.
   */
  predicate Valid(s: Store)
  {
    && Increasing(s.employees) && IdsBelow(s.employees, s.nextId)
    && Increasing(s.attendance) && IdsBelow(s.attendance, s.nextId)
  }

  /**
   * No two employees answer the same `{email: v}` lookup, absent emails
   * included (they all read as `null`).
   */
  predicate EmailsUnique(employees: seq<Doc>)
  {
    forall i, j | 0 <= i < j < |employees| :: Get(employees[i].fields, "email") != Get(employees[j].fields, "email")
  }

  /** An attendance row joined with the employee looked up by the same email. */
  datatype WithUser = WithUser(record: Doc, user: Option<Doc>)

  /** The body (and status) the client receives. */
  datatype Response =
    | ErrorReply(status: nat, message: string)
    | AdminReply(admin: bool)
    | UserExistReply(isUserExist: bool, message: string)
    | EmailExistReply(message: string)
    | InsertReply(insertedId: Id)
    | UpdateReply(matchedCount: nat, modifiedCount: nat)
    | DeleteReply(deletedCount: nat)
    | Records(docs: seq<Doc>)
    | RecordsWithUser(rows: seq<WithUser>)

  const Unauthorized: Response := ErrorReply(401, "unauthorized access")
  const Forbidden: Response := ErrorReply(403, "forbidden request")
  const NoAccessMessage: string := "Sorry Your you have no access to create account"
  const PleaseRegisterMessage: string := "please register"
  const EmailTakenMessage: string := "Employee with this email already exists."

  datatype Outcome = Outcome(response: Response, store: Store)

  /** `insertOne` into the employee collection with a fresh identifier. */
  function AddEmployee(s: Store, fields: Fields): (r: Outcome)
    ensures r.response == InsertReply(s.nextId)
    ensures r.store.employees == s.employees + [Doc(s.nextId, fields)]
    ensures r.store.attendance == s.attendance && r.store.nextId == s.nextId + 1
    ensures Valid(s) ==> Valid(r.store)
  {
    var docs := InsertOne(s.employees, s.nextId, fields);
    var t := Store(docs, s.attendance, s.nextId + 1);
    assert Valid(s) ==> IdsBelow(docs, t.nextId) && IdsBelow(t.attendance, t.nextId);
    Outcome(InsertReply(s.nextId), t)
  }

  /** `insertOne` into the attendance collection with a fresh identifier. */
  function AddAttendance(s: Store, fields: Fields): (r: Outcome)
    ensures r.response == InsertReply(s.nextId)
    ensures r.store.attendance == s.attendance + [Doc(s.nextId, fields)]
    ensures r.store.employees == s.employees && r.store.nextId == s.nextId + 1
    ensures Valid(s) ==> Valid(r.store)
  {
    var docs := InsertOne(s.attendance, s.nextId, fields);
    var t := Store(s.employees, docs, s.nextId + 1);
    assert Valid(s) ==> IdsBelow(docs, t.nextId) && IdsBelow(t.employees, t.nextId);
    Outcome(InsertReply(s.nextId), t)
  }
}

=== FILE: text.dfy ===
/**
 * The string operations the service relies on: `Number.prototype.toString`
 * for non-negative integers below 2^53, `String.prototype.padStart` with a one-character
 * pad, and `String.prototype.split` on a one-character separator.
 */
module Text {

  predicate IsDigit(c: char)
  {
    '0' <= c <= '9'
  }

  predicate AllDigits(s: string)
  {
    forall i | 0 <= i < |s| :: IsDigit(s[i])
  }

  function DigitChar(d: nat): (c: char)
    requires d < 10
    ensures IsDigit(c)
  {
    ('0' as int + d) as char
  }

  function DigitValue(c: char): (d: nat)
    requires IsDigit(c)
    ensures d < 10
  {
    (c as int - '0' as int) as nat
  }

  lemma DigitValueOfDigitChar(d: nat)
    requires d < 10
    ensures DigitValue(DigitChar(d)) == d
  {
  }

  /**
   * Decimal notation of `n` without leading zeros, as `n.toString()` writes
   * a non-negative integer below 2^53 (a JavaScript number is exact up to
   * there, and switches to exponent notation only from 10^21).
   */
  function Decimal(n: nat): (s: string)
    ensures 1 <= |s| && AllDigits(s)
    ensures s[0] == '0' <==> n == 0
    ensures |s| == 1 <==> n < 10
    decreases n
  {
    if n < 10 then [DigitChar(n)] else Decimal(n / 10) + [DigitChar(n % 10)]
  }

  /** Reads a string of decimal digits back as a number; leading zeros are allowed. */
  function ParseDecimal(s: string): nat
    requires AllDigits(s)
    decreases |s|
  {
    if |s| == 0 then 0 else 10 * ParseDecimal(s[..|s| - 1]) + DigitValue(s[|s| - 1])
  }

  /** Writing a number in decimal and reading it back gives the number. */
  lemma {:induction false} ParseDecimalOfDecimal(n: nat)
    ensures ParseDecimal(Decimal(n)) == n
    decreases n
  {
    if n < 10 {
      DigitValueOfDigitChar(n);
    } else {
      var s := Decimal(n);
      assert s[..|s| - 1] == Decimal(n / 10);
      ParseDecimalOfDecimal(n / 10);
      DigitValueOfDigitChar(n % 10);
    }
  }

  /** A leading zero does not change the value read. */
  lemma {:induction false} ParseDecimalLeadingZero(s: string)
    requires AllDigits(s)
    ensures AllDigits("0" + s) && ParseDecimal("0" + s) == ParseDecimal(s)
    decreases |s|
  {
    var z := "0" + s;
    assert AllDigits(z) by {
      forall i | 0 <= i < |z| ensures IsDigit(z[i]) {
        if i > 0 { assert z[i] == s[i - 1]; }
      }
    }
    if |s| > 0 {
      var init := s[..|s| - 1];
      assert z[..|z| - 1] == "0" + init;
      ParseDecimalLeadingZero(init);
    }
  }

  function Repeat(c: char, k: nat): (r: string)
    ensures |r| == k
    ensures forall i | 0 <= i < k :: r[i] == c
  {
    if k == 0 then [] else [c] + Repeat(c, k - 1)
  }

  /**
   * `s.padStart(width, c)`: `s` unchanged when it is already `width` long,
   * otherwise `s` preceded by as many `c` as make it `width` long.
   */
  function PadStart(s: string, width: nat, c: char): (r: string)
    ensures |r| == if |s| < width then width else |s|
    ensures r[|r| - |s|..] == s
    ensures forall i | 0 <= i < |r| - |s| :: r[i] == c
  {
    if |s| < width then Repeat(c, width - |s|) + s else s
  }

  /** Joins pieces with a separator between each neighbouring pair. */
  function Join(parts: seq<string>, sep: char): string
    requires |parts| >= 1
    decreases |parts|
  {
    if |parts| == 1 then parts[0] else parts[0] + [sep] + Join(parts[1..], sep)
  }

  /** Prepending a character to the first piece prepends it to the joined text. */
  lemma JoinExtendFirst(c: char, parts: seq<string>, sep: char)
    requires |parts| >= 1
    ensures Join([[c] + parts[0]] + parts[1..], sep) == [c] + Join(parts, sep)
  {
    var extended := [[c] + parts[0]] + parts[1..];
    assert extended[1..] == parts[1..];
  }

  /**
   * `s.split(sep)`: the maximal separator-free pieces between separators,
   * empty pieces included; joining them with the separator gives `s` back.
   */
  function Split(s: string, sep: char): (parts: seq<string>)
    ensures |parts| >= 1
    ensures forall i | 0 <= i < |parts| :: sep !in parts[i]
    ensures Join(parts, sep) == s
    ensures |parts| == 1 <==> sep !in s
    decreases |s|
  {
    if |s| == 0 then
      [""]
    else
      var rest := Split(s[1..], sep);
      if s[0] == sep then
        assert s == [sep] + s[1..];
        [""] + rest
      else
        JoinExtendFirst(s[0], rest, sep);
        assert s == [s[0]] + s[1..];
        [[s[0]] + rest[0]] + rest[1..]
  }

  /**
   * Where the second piece of a split sits: right after the first separator,
   * and followed by another separator or by the end of the string.
   */
  lemma SecondPiece(s: string, sep: char)
    requires |Split(s, sep)| > 1
    ensures var parts := Split(s, sep);
            var i := |parts[0]|;
            var e := i + 1 + |parts[1]|;
            && e <= |s|
            && s[..i] == parts[0] && s[i] == sep
            && s[i + 1..e] == parts[1]
            && (e == |s| || s[e] == sep)
  {
    JoinSecondPiece(Split(s, sep), sep);
  }

  lemma JoinSecondPiece(parts: seq<string>, sep: char)
    requires |parts| > 1
    ensures var s := Join(parts, sep);
            var i := |parts[0]|;
            var e := i + 1 + |parts[1]|;
            && e <= |s|
            && s[..i] == parts[0] && s[i] == sep
            && s[i + 1..e] == parts[1]
            && (e == |s| || s[e] == sep)
  {
    var s := Join(parts, sep);
    var i := |parts[0]|;
    var rest := Join(parts[1..], sep);
    assert s == parts[0] + [sep] + rest;
    var tail: string := if |parts| > 2 then [sep] + Join(parts[2..], sep) else [];
    assert rest == parts[1] + tail by {
      if |parts| > 2 {
        assert parts[1..][1..] == parts[2..];
      }
    }
    assert s[..i] == parts[0];
    assert s[i + 1..] == rest;
  }
}

=== FILE: values.dfy ===
/**
 * JSON values as they appear in request bodies and stored documents.
 *
 * Only scalars are modelled. A field that a JavaScript object lacks reads as
 * `undefined`; the database driver serialises `undefined` as `null`, and an
 * equality filter `{k: null}` matches a document whose field `k` is null or
 * missing. Both facts make "absent" and `null` indistinguishable for every
 * filter and lookup, so `Get` reads an absent field as `Null`. They still
 * differ in a document's key set, which `$set` extends and which the
 * listings send back, so updates state the key set as well.
 */
module Values {

  datatype Option<+T> = None | Some(value: T)

  datatype Value = Null | Bool(b: bool) | Num(n: int) | Str(s: string)

  /** The fields of a request body or of a stored document. */
  type Fields = map<string, Value>

  /** Reads field `k`, `Null` when it is absent. */
  function Get(fields: Fields, k: string): Value
  {
    if k in fields then fields[k] else Null
  }

  /**
   * The `$set` update operator: every key of `updates` takes its new value,
   * every other field keeps its old one.
   */
  function Assign(fields: Fields, updates: Fields): (r: Fields)
    ensures r.Keys == fields.Keys + updates.Keys
    ensures forall k :: k in updates ==> Get(r, k) == updates[k]
    ensures forall k :: k !in updates ==> Get(r, k) == Get(fields, k)
  {
    fields + updates
  }
}
